=== FILE: README.md ===
# moyamoya-presen-maker in Dafny

A model of the two front-ends of *moyamoya-presen-maker*, which turns a
rough memo ("もやもや") into a five-minute presentation.

**The canonical front-end** (`App.tsx`, `services/geminiService.ts`, `types.ts`):
- The author types a memo.
- A generative backend drafts a script in five `■` sections and asks 3–5
  deepening questions.
- The author answers the questions, and a merge call folds the answers
  back into the script.
- The draft lives in one browser-storage slot, `moyamoya_v3_draft`.

**The slide-deck front-end** (`src/App.tsx`, `src/services/geminiService.ts`,
`src/types.ts`):
- The author's input is turned into a JSON slide deck.
- The deck is cut out of the reply text with `/\{[\s\S]*\}/`.
- The deck is paged through slide by slide.

Modules:

| module | file | what it holds |
|---|---|---|
| `Wrappers` | wrappers.dfy | `Option` and `Result` |
| `Text` | text.dfy | JavaScript `trim`; `split` on one character; `join`; substring occurrence |
| `Draft` | draft.dfy | question, persisted draft, in-memory state; the save projection and the load merge |
| `Sections` | sections.dfy | how the script is cut into headed sections for display |
| `Prompts` | prompts.dfy | the three prompt templates; the answer-merge context; how each reply becomes a script or a question list |
| `Workflow` | workflow.dfy | every handler as a pure transition; the load and save effects; one `Step` per event, and the lifecycle invariants |
| `Deck` | deck.dfy | slide and presentation records |
| `Extract` | extract.dfy | the slide prompt; JSON-object extraction against a leftmost-longest reference; the single failure message |
| `Viewer` | viewer.dfy | the slide front-end's generate handler and slide navigation |

How the environment is modelled:
- **Backend calls become parameters.** A canonical-front-end call is a
  `Prompts.Reply`: it threw, or it responded with an optional text. A
  slide-deck call is an `Option<string>` reply text. `JSON.parse` followed
  by the unchecked cast is a `decode` function parameter.
- **Clock readings become string parameters**, one per reading.
- **The confirmation dialog is a `confirmed` flag.**
- **Storage is a `Workflow.Slot`:** vacant, holding text that does not
  parse, or holding a draft.
- **Handlers are atomic.** Each handler runs to completion as one
  transition.

## Model

| member | source | states |
|---|---|---|
| Text.Trim | App.tsx:58 | the trimmed text is the slice of the input after its leading whitespace, followed only by whitespace; it is empty exactly when the input is all whitespace, and otherwise starts and ends with a non-space |
| Text.TrimIdempotent | App.tsx:208 | trimming an already trimmed text changes nothing |
| Text.Split | App.tsx:202 | splitting at a character gives one more piece than there are occurrences, and no piece contains the character |
| Text.JoinSplit | App.tsx:208 | joining the pieces of a split with the same character gives back the original text |
| Draft.HasAnyAnswerScan | App.tsx:86 | the refine guard, read as a front-to-back scan: the empty list has no answer, and a list has one exactly when its first question is answered or the rest has one |
| Draft.Snapshot | App.tsx:41-44 | the save keeps the six persisted fields, and merging it back over the same state changes nothing |
| Draft.Restore | App.tsx:31 | the load merge never touches `isGenerating`, `error` or `apiKey` |
| Draft.SnapshotIgnoresTransient | App.tsx:41-45 | the busy flag, the error and the API key never reach storage: changing them leaves the saved draft the same |
| Draft.RestoreThenSnapshot | App.tsx:31 | merging a stored draft over any state and saving again gives back exactly the stored draft |
| Sections.SectionOf | App.tsx:205-208 | a section heading is the prefix of the piece up to its first newline; the body is the trimmed text after that newline, or empty when there is none |
| Sections.SectionOfVisible | App.tsx:202-208 | a piece that survives the blank filter shows a non-blank heading or a non-empty body |
| Sections.Keep | App.tsx:202 | filtering and mapping marker-free pieces yields at most one section per piece, and every section is displayable |
| Sections.SectionsOf | App.tsx:202-208 | a script shows at most one section per `■` plus one; every section is visible, with a single-line heading and no marker; a blank script shows none |
| Sections.NoMarkerOneSection | App.tsx:202-205 | a non-blank script without `■` shows as one section, headed by its first line |
| Sections.KeepSingle | App.tsx:202-208 | one piece alone is dropped when blank and otherwise read as one section |
| Sections.KeepAppend | App.tsx:202 | filtering and mapping distributes over concatenation of the pieces, so blank pieces vanish wherever they sit and the order is kept |
| Sections.SectionsOfLeadRender | App.tsx:202-208 | text before the first `■` shows as a section of its own unless it is blank; the sections written after it come back exactly and in order |
| Sections.SplitRender | App.tsx:202 | splitting a script written marker-first yields an empty lead-in and then one piece per section |
| Sections.SectionsOfRender | App.tsx:202-208 | writing well-formed sections as `■` + heading line + body and displaying the result gives back exactly those sections in order |
| Prompts.TextOr | services/geminiService.ts:38 | an absent or empty reply text falls back; any other text is kept |
| Prompts.ScriptResult | services/geminiService.ts:34-38 | the script outcome is a failure exactly when the call threw; it is the empty script exactly when the text was absent or empty; any other script is the reply text verbatim |
| Prompts.WithEmptyAnswers | services/geminiService.ts:76 | the question list keeps length, order, ids, questions and reasons of the decoded array, and every answer is empty |
| Prompts.FreshQuestionsUnanswered | services/geminiService.ts:76 | no freshly generated question counts as answered |
| Prompts.QuestionsResult | services/geminiService.ts:55-76 | a question list is produced exactly when the call responded and the text (or "[]" when absent or empty) decodes; it mirrors the decoded array, and every answer is the empty string |
| Prompts.EmptyReplyNoQuestions | services/geminiService.ts:75 | an absent or empty reply text gives an empty question list |
| Prompts.AnsweredOnly | services/geminiService.ts:81 | the kept questions are all answered; none is kept exactly when none is answered |
| Prompts.AnsweredKept | services/geminiService.ts:81 | every question with a non-blank answer is kept |
| Prompts.AnsweredOnlyAppend | services/geminiService.ts:80-81 | the filter distributes over concatenation, so the original order is kept |
| Prompts.QaContext | services/geminiService.ts:80-83 | the merge context is empty exactly when no question is answered |
| Prompts.QaContextAppend | services/geminiService.ts:80-83 | the context of two question lists is their two contexts separated by a blank line, or whichever is non-empty |
| Prompts.Entry | services/geminiService.ts:82 | an entry is as long as its two labels, question and answer together, with the question at the end of the first label and the answer at the end of the second, both verbatim |
| Prompts.EntryLayout | services/geminiService.ts:82 | an entry opens with `質問：`, and `\n回答：` sits right after the question, so each entry is `質問：` + question + `\n回答：` + answer |
| Prompts.QaContextSingle | services/geminiService.ts:82 | one answered question contributes `質問：<question>\n回答：<answer>` |
| Prompts.QaContextSkipsBlank | services/geminiService.ts:81 | a question with a blank answer contributes nothing, wherever it sits |
| Prompts.QaContextHasEveryAnswer | services/geminiService.ts:80-83 | every answered question's entry, with its answer as typed and not trimmed, occurs in the context |
| Prompts.PlanLines | services/geminiService.ts:23-31 | each section heading starts with `■`, and neither heading nor guidance holds a line break |
| Prompts.PlanBlocks | services/geminiService.ts:23-32 | the section plan is five blocks; each starts with `■` and splits at line breaks into exactly its heading and its guidance |
| Prompts.InitialPrompt | services/geminiService.ts:14-32 | the initial prompt holds the memo verbatim right after the intro |
| Prompts.InitialHeading | services/geminiService.ts:23-31 | the k-th section heading occurs whole at its position in the initial prompt, before the next heading |
| Prompts.InitialPromptLayout | services/geminiService.ts:14-32 | the five headings occur in the initial prompt whole and in order, all after the memo |
| Prompts.QuestionsPrompt | services/geminiService.ts:42-53 | the question prompt holds the script verbatim right after the intro |
| Prompts.QuestionsPromptIgnoresMemo | services/geminiService.ts:41-53 | the question prompt is the same whatever memo is passed |
| Prompts.UpdatePrompt | services/geminiService.ts:85-97 | the merge prompt holds the current script and then the merge context, both verbatim, at fixed offsets |
| Workflow.ShowError | App.tsx:47-49 | reporting an error shows exactly that message and changes nothing else |
| Workflow.EditMoyamoya | App.tsx:172 | typing into the memo box sets the memo and changes nothing else |
| Workflow.SaveEffect | App.tsx:40-45 | the save effect writes the draft's six fields when the state was rebuilt or the memo or script changed, and otherwise leaves the slot as it was |
| Workflow.GenerateInitial | App.tsx:57-83 | a blank memo shows its message; a failure of either call shows the failure message and keeps script and questions; success sets both, the update time, step 2 and the toast; the memo, version and creation time never change and the busy flag ends down |
| Workflow.HandleUpdate | App.tsx:85-109 | without an answered question the refine is refused with its message; a failed call shows the failure message; success replaces only the script and update time and shows the toast; questions, answers, version and step never change |
| Workflow.SetAnswer | App.tsx:111-116 | the answer list keeps length and order; every question with the id gets the value as its answer; every other question is untouched |
| Workflow.HandleAnswerChange | App.tsx:111-116 | typing an answer changes nothing outside the question list, and sets that answer on every question with the id |
| Workflow.ResetDraft | App.tsx:257-264 | a confirmed reset empties memo, script and questions and shows step 1, keeping version and timestamps; an unconfirmed one changes nothing |
| Workflow.LoadDraft | App.tsx:26-37 | a stored draft sets the six persisted fields, keeps the transient ones, and shows step 2 exactly when it has a script; a vacant or unparsable slot changes nothing |
| Workflow.Step | App.tsx:39-45 | after any event the slot either keeps its content or holds the new draft's fields; after a confirmed reset it holds the emptied draft |
| Workflow.Mount | App.tsx:9-45 | after mounting, the slot holds the shown draft; a stored draft is restored with step 2 when it has a script, and otherwise the empty draft at step 1 is shown; either way the view is not busy, shows no error and no toast, and has an empty API key |
| Workflow.FreshQuestionsArrays | App.tsx:45 | a successful generation, any typed answer and a confirmed reset hand the save effect a new questions array; no other event does, and then the question list is unchanged |
| Workflow.MountInSync | App.tsx:26-45 | mounting leaves the slot in sync with the draft |
| Workflow.StepKeepsSync | App.tsx:40-45 | every event keeps the slot in sync with memo, script, questions, version and creation time, so storage never pairs a script with another draft's questions |
| Workflow.StepKeepsVersion | App.tsx:57-116 | no event changes the version or the creation time |
| Workflow.StepKeepsProgress | App.tsx:21 | the progress step stays 1 or 2 under every event |
| Workflow.StepNeverLeavesBusy | App.tsx:63-82 | no event that starts idle leaves the busy flag raised |
| Workflow.SaveThenReload | App.tsx:26-45 | reloading a saved draft restores its six fields verbatim and shows step 2 exactly when it has a script |
| Workflow.CorruptSlotStartsEmpty | App.tsx:28-35 | an unparsable slot is ignored: the empty draft is shown and written over it |
| Workflow.ResetThenReload | App.tsx:257-264 | after a confirmed reset a reload shows the empty draft at step 1 with the version and timestamps the reset kept |
| Workflow.SetAnswerLastWins | App.tsx:111-116 | of two answers typed into one question, the later wins |
| Workflow.SetAnswerCommutes | App.tsx:111-116 | answers typed into questions with different ids do not interfere |
| Workflow.AnswerOpensRefine | App.tsx:86 | a non-blank answer typed into a shown question opens the refine guard |
| Workflow.RefineRefusedAfterGenerate | App.tsx:86-90 | right after a successful generation, refining is refused until an answer is typed |
| Extract.FirstIndex | src/services/geminiService.ts:55 | the position found holds the character and no earlier one does; none is found only when the character is absent |
| Extract.LastIndex | src/services/geminiService.ts:55 | the position found holds the character and no later one does; none is found only when the character is absent |
| Extract.MatchObject | src/services/geminiService.ts:55-56 | there is a result exactly when some substring opens with `{` and closes with `}`; the result is the leftmost, then longest, such substring |
| Extract.SurroundingTextIgnored | src/services/geminiService.ts:55-57 | prose before the first `{` and after the last `}` is dropped and the object is cut out whole |
| Extract.PresentationPrompt | src/services/geminiService.ts:16-47 | the slide prompt is the intro, then the user input verbatim between two `"""` lines, then the format instructions, which close it |
| Extract.Attempt | src/services/geminiService.ts:49-60 | a call failure, a reply without an object and an undecodable object are told apart; when an object is found the outcome is exactly what it decodes to; a success is the decoding of the leftmost-longest object in the reply |
| Extract.GeneratePresentation | src/services/geminiService.ts:49-64 | every failure, whatever its cause, carries the one generic message; success is exactly a successful attempt, with its presentation |
| Extract.NoObjectFails | src/services/geminiService.ts:55-63 | a reply with no `{` before a `}` ends in the generic failure |
| Viewer.TypeInput | src/App.tsx:60-66 | typing changes only the input |
| Viewer.BeginGenerate | src/App.tsx:18-20 | while the call runs the screen is loading with no error and no deck; input and index are kept |
| Viewer.FinishGenerate | src/App.tsx:22-30 | a settled call shows the deck from slide 0, or shows the error and keeps the index; loading ends either way |
| Viewer.HandleGenerate | src/App.tsx:12-31 | a blank input only shows its message; otherwise the new deck is shown from slide 0, or the generic failure message is shown with no deck |
| Viewer.NextSlide | src/App.tsx:33-37 | the index moves forward exactly when a deck is shown and the current slide is not its last; otherwise nothing changes |
| Viewer.PrevSlide | src/App.tsx:39-43 | the index moves back exactly when it is positive; otherwise nothing changes |
| Viewer.SelectSlide | src/App.tsx:132-140 | a dot jumps to its slide and changes nothing else |
| Viewer.Current | src/App.tsx:104-114 | a slide is rendered exactly when the deck shown has slides, and it is the slide at the current index |
| Viewer.InitialInBounds | src/App.tsx:10 | the first render has an in-bounds index |
| Viewer.HandlersKeepInBounds | src/App.tsx:12-43 | typing, generating, next, prev and the dots all keep the index non-negative and within the deck |
| Viewer.GeneratedDeckStartsAtFirst | src/App.tsx:24-25 | a freshly generated deck with slides renders its first slide |
| Viewer.NextPrevInverse | src/App.tsx:33-43 | next then prev, and prev then next within a deck, return to the same slide |
| Viewer.EndsAreStops | src/App.tsx:33-43 | next on the last slide and prev on the first change nothing |
| Viewer.NextTimesSaturates | src/App.tsx:33-37 | pressing next n times moves n slides forward, stops at the last slide, and changes nothing but the index |

## Left out

- Backend calls, model names, API keys, the response schema of the question
  call and `JSON.parse` are not modelled. Each call is a parameter that
  stands for its outcome, and `decode` stands for parsing plus the
  unchecked cast.
- Prompts.QuestionsResult: the backend's schema is trusted. Question ids are
  not checked for uniqueness, and a reply that is valid JSON but not an
  array of question objects is modelled as a decode failure, not as the
  JavaScript outcome.
- Workflow.LoadDraft: a stored value that parses but is not a full draft is
  not modelled. Examples are `null`, missing fields and extra fields. A slot
  holds either a complete draft or unparsable text.
- `JSON.stringify` and the storage encoding are not modelled. `Slot.Saved`
  holds the six fields directly.
- Clock readings are not modelled. Timestamps are opaque strings; the two
  readings of the initial state are separate parameters, so they may differ.
- The 5-second error timer and the 4-second toast timer are modelled only
  as `ErrorExpired` and `ToastExpired` events. The timers are never
  cancelled, so an old timer can clear a newer message early; time is not
  modelled.
- Workflow.Step: handlers run atomically, with both generate buttons
  disabled while busy. Other interleavings are not modelled:
  - The memo box, the answer boxes and the reset button stay enabled
    during a call.
  - The awaited calls read the state captured at the click.
- The download button, the file input, scrolling, the step indicator and
  all markup are left out.
- Viewer.Current: a generated deck with no slides makes the real view throw
  when it reads the current slide's title. The model renders nothing
  instead. The prompt asks for 3–7 slides, and `decode` is trusted to give
  a deck.
- Viewer.HandleGenerate: the `'予期しないエラーが発生しました'` fallback is
  not modelled. It is unreachable because the service only throws `Error`
  objects.

## Behaviours of the code worth knowing

The model follows the code, including these behaviours a reader might not
expect:
- No handler changes `version`. It stays 1 from the initial state, or the
  stored value.
- When the question call fails after the script call succeeded, the new
  script is discarded too. Neither script nor questions change.
- The question prompt ignores the memo it is given.
- A confirmed reset removes the slot, but the save effect then writes the
  emptied draft back. Its `questions` is a new empty array and the
  effect's dependencies compare by identity. So the slot is never left
  empty.
- There is no separate "deepening" phase. Step 2 covers both showing the
  script and answering the questions.
- A script without any `■` still shows as one section, headed by its first
  line.

=== FILE: deck.dfy ===
/** The document shape of the slide-deck front-end: a titled list of slides,
    each with a title, a content text and optional speaker notes. */
module Deck {
  import opened Wrappers

  datatype Slide = Slide(title: string, content: string, notes: Option<string>)

  datatype GeneratedPresentation = GeneratedPresentation(title: string, slides: seq<Slide>)
}

=== FILE: draft.dfy ===
/** The draft record of the canonical front-end and its durable projection:
    a question list, the six persisted presentation fields, and the in-memory
    state that adds the transient `isGenerating`, `error` and `apiKey`. */
module Draft {
  import opened Wrappers
  import opened Text

  /** One deepening question; `answer` is typed by the author. */
  datatype Question = Question(id: int, question: string, reason: string, answer: string)

  /** The persisted part of a draft. */
  datatype PresentationData = PresentationData(
    moyamoya: string,
    script: string,
    questions: seq<Question>,
    version: int,
    createdAt: string,
    updatedAt: string)

  /** The in-memory draft: the persisted fields plus transient ones. */
  datatype AppState = AppState(
    moyamoya: string,
    script: string,
    questions: seq<Question>,
    version: int,
    createdAt: string,
    updatedAt: string,
    isGenerating: bool,
    error: Option<string>,
    apiKey: string)

  /** The state the component starts with. `createdNow` and `updatedNow`
      are the two ISO timestamps read from the clock one after the other, so
      they may differ. */
  function InitialState(createdNow: string, updatedNow: string): AppState {
    AppState("", "", [], 1, createdNow, updatedNow, false, None, "")
  }

  /** A question counts as answered when its answer is not blank. */
  predicate Answered(q: Question) {
    !IsBlank(q.answer)
  }

  /** `questions.some(q => q.answer.trim() !== "")`. */
  predicate HasAnyAnswer(qs: seq<Question>) {
    exists i :: 0 <= i < |qs| && Answered(qs[i])
  }

  /** `some` scans from the front: a list has an answer exactly when its
      first question is answered or the rest has an answer, and the empty
      list has none. */
  lemma HasAnyAnswerScan(qs: seq<Question>)
    ensures qs == [] ==> !HasAnyAnswer(qs)
    ensures qs != [] ==> (HasAnyAnswer(qs) <==> Answered(qs[0]) || HasAnyAnswer(qs[1..]))
  {
  }

  /** The six fields the save effect writes. They are all a state holds
      besides its transient fields: merging them back into the same state
      changes nothing. */
  function Snapshot(s: AppState): (d: PresentationData)
    ensures Restore(s, d) == s
  {
    PresentationData(s.moyamoya, s.script, s.questions, s.version, s.createdAt, s.updatedAt)
  }

  /** `{ ...prev, ...parsed }`: the stored fields override, the transient
      fields of `prev` stay. */
  function Restore(prev: AppState, d: PresentationData): (r: AppState)
    ensures r.isGenerating == prev.isGenerating && r.error == prev.error && r.apiKey == prev.apiKey
  {
    prev.(moyamoya := d.moyamoya, script := d.script, questions := d.questions,
          version := d.version, createdAt := d.createdAt, updatedAt := d.updatedAt)
  }

  /** Restoring a snapshot brings back exactly the six stored fields. */
  lemma RestoreThenSnapshot(prev: AppState, d: PresentationData)
    ensures Snapshot(Restore(prev, d)) == d
  {
  }

  /** The save writes nothing transient: the busy flag, the error and the
      key never reach storage. */
  lemma SnapshotIgnoresTransient(s: AppState, busy: bool, error: Option<string>, apiKey: string)
    ensures Snapshot(s.(isGenerating := busy, error := error, apiKey := apiKey)) == Snapshot(s)
  {
  }
}

=== FILE: extract.dfy ===
/** The generation service of the slide-deck front-end: its prompt, the
    extraction of the JSON object from the reply text with the pattern
    `/\{[\s\S]*\}/`, and the single error every failure turns into. The model
    call and `JSON.parse` are parameters. */
module Extract {
  import opened Wrappers
  import opened Text
  import opened Deck

  /** The one message every failure of `generatePresentation` carries. */
  const GenerateFailedMessage: string := "プレゼンテーションの生成に失敗しました。もう一度お試しください。"

  // ----- Matching `/\{[\s\S]*\}/` -----

  /** `text[i..j]` matches the pattern: it opens with `{`, closes with `}`
      and has anything in between. */
  predicate IsMatch(text: string, i: int, j: int) {
    0 <= i && i + 2 <= j <= |text| && text[i] == '{' && text[j - 1] == '}'
  }

  /** The match `String.prototype.match` reports: the leftmost start, and
      from it the longest match, since `[\s\S]*` is greedy. */
  ghost predicate LeftmostLongest(text: string, i: int, j: int) {
    && IsMatch(text, i, j)
    && forall i', j' :: IsMatch(text, i', j') ==> i < i' || (i == i' && j' <= j)
  }

  /** Position of the first `c` in `s`. */
  function FirstIndex(s: string, c: char): (r: Option<nat>)
    ensures r.Some? ==> r.value < |s| && s[r.value] == c
    ensures r.Some? ==> forall k :: 0 <= k < r.value ==> s[k] != c
    ensures r.None? ==> forall k :: 0 <= k < |s| ==> s[k] != c
  {
    if s == [] then None
    else if s[0] == c then Some(0)
    else
      match FirstIndex(s[1..], c)
      case None => None
      case Some(k) => Some(k + 1)
  }

  /** Position of the last `c` in `s`. */
  function LastIndex(s: string, c: char): (r: Option<nat>)
    ensures r.Some? ==> r.value < |s| && s[r.value] == c
    ensures r.Some? ==> forall k :: r.value < k < |s| ==> s[k] != c
    ensures r.None? ==> forall k :: 0 <= k < |s| ==> s[k] != c
  {
    if s == [] then None
    else if s[|s| - 1] == c then Some(|s| - 1)
    else LastIndex(s[..|s| - 1], c)
  }

  /** `text.match(/\{[\s\S]*\}/)?.[0]`: the text from the first `{` to the last
      `}`. There is a match exactly when some `{` has a `}` after it, and the
      result is the leftmost-longest match. */
  function MatchObject(text: string): (r: Option<string>)
    ensures r.None? <==> forall i, j :: !IsMatch(text, i, j)
    ensures r.Some? ==> exists i, j :: LeftmostLongest(text, i, j) && r.value == text[i..j]
    ensures r.Some? ==> |r.value| >= 2 && r.value[0] == '{' && r.value[|r.value| - 1] == '}'
  {
    var first := FirstIndex(text, '{');
    var last := LastIndex(text, '}');
    if first.Some? && last.Some? && first.value < last.value then
      var i, j := first.value, last.value + 1;
      assert LeftmostLongest(text, i, j);
      Some(text[i..j])
    else
      None
  }

  // ----- The prompt -----

  /** Text of the prompt before the fenced user input. */
  const PromptIntro: string :=
    "\nあなたはプレゼンテーション作成のプロフェッショナルです。\n"
    + "以下のもやもやした考えや悩みを、明確で説得力のあるプレゼンテーションに変換してください。\n\n"
    + "ユーザーの入力:\n"

  /** The delimiter line around the user input. */
  const Fence: string := "\"\"\""

  /** Text of the prompt after the fenced user input: the JSON shape and the
      suggested slide plan. */
  const PromptFormat: string :=
    "\n\n以下のJSON形式で出力してください（JSONのみ、他の説明は不要）:\n"
    + "{\n"
    + "  \"title\": \"プレゼンテーションのタイトル\",\n"
    + "  \"slides\": [\n"
    + "    {\n"
    + "      \"title\": \"スライド1のタイトル\",\n"
    + "      \"content\": \"スライド1の内容（箇条書きや説明文）\"\n"
    + "    },\n"
    + "    {\n"
    + "      \"title\": \"スライド2のタイトル\",\n"
    + "      \"content\": \"スライド2の内容\"\n"
    + "    }\n"
    + "  ]\n"
    + "}\n\n"
    + "スライドは3〜7枚程度で、以下の構成を意識してください：\n"
    + "1. タイトルスライド（問題提起）\n"
    + "2. 現状・背景\n"
    + "3. 課題・問題点\n"
    + "4. 解決策・提案\n"
    + "5. 期待される効果\n"
    + "6. まとめ・次のステップ\n"

  /** The user input on its own lines between two fences. */
  function Fenced(userInput: string): string {
    Fence + "\n" + userInput + "\n" + Fence
  }

  /** The prompt of `generatePresentation`: the introduction, then the user
      input verbatim with a `"""` line right before and after it, then the
      format instructions, which close the prompt. */
  function PresentationPrompt(userInput: string): (p: string)
    ensures |p| == |PromptIntro| + |Fence| + 1 + |userInput| + 1 + |Fence| + |PromptFormat|
    ensures OccursAt(PromptIntro, p, 0)
    ensures OccursAt(Fence + "\n", p, |PromptIntro|)
    ensures OccursAt(userInput, p, |PromptIntro| + |Fence| + 1)
    ensures OccursAt("\n" + Fence, p, |PromptIntro| + |Fence| + 1 + |userInput|)
    ensures OccursAt(PromptFormat, p, |p| - |PromptFormat|)
  {
    PromptIntro + Fenced(userInput) + PromptFormat
  }

  // ----- The call -----

  /** Why an attempt failed: the model call threw, the reply had no object,
      or the object did not parse. */
  datatype Cause = CallFailed | NoObject | Unparsable

  /** The body of the `try`: `reply` is the reply text (None when the call
      or reading its text threw), `decode` stands for `JSON.parse` with the
      unchecked cast. */
  function Attempt(reply: Option<string>, decode: string -> Option<GeneratedPresentation>): (r: Result<GeneratedPresentation, Cause>)
    ensures r == Failure(CallFailed) <==> reply.None?
    ensures r == Failure(NoObject) <==> reply.Some? && MatchObject(reply.value).None?
    ensures reply.Some? && MatchObject(reply.value).Some? ==>
      r == match decode(MatchObject(reply.value).value)
           case Some(p) => Success(p)
           case None => Failure(Unparsable)
    ensures r.Success? ==> exists i, j ::
      LeftmostLongest(reply.value, i, j) && decode(reply.value[i..j]) == Some(r.value)
  {
    match reply
    case None => Failure(CallFailed)
    case Some(text) =>
      match MatchObject(text)
      case None => Failure(NoObject)
      case Some(json) =>
        match decode(json)
        case None => Failure(Unparsable)
        case Some(p) => Success(p)
  }

  /** `generatePresentation`: whatever went wrong, the caller sees the same
      generic message; on success the presentation is what the object
      extracted from the reply decodes to. */
  function GeneratePresentation(reply: Option<string>, decode: string -> Option<GeneratedPresentation>): (r: Result<GeneratedPresentation, string>)
    ensures r.Failure? ==> r.error == GenerateFailedMessage
    ensures r.Success? <==> Attempt(reply, decode).Success?
    ensures r.Success? ==> r.value == Attempt(reply, decode).value
  {
    match Attempt(reply, decode)
    case Success(p) => Success(p)
    case Failure(_) => Failure(GenerateFailedMessage)
  }

  /** A reply with no `{` before a `}` fails with the generic message. */
  lemma NoObjectFails(text: string, decode: string -> Option<GeneratedPresentation>)
    requires forall i, j :: 0 <= i < j < |text| ==> !(text[i] == '{' && text[j] == '}')
    ensures GeneratePresentation(Some(text), decode) == Failure(GenerateFailedMessage)
  {
  }

  /** Text around the object does not matter: prose before the first `{` and
      after the last `}` is dropped. */
  lemma SurroundingTextIgnored(before: string, obj: string, after: string)
    requires '{' !in before && '}' !in after
    requires |obj| >= 2 && obj[0] == '{' && obj[|obj| - 1] == '}'
    ensures MatchObject(before + obj + after) == Some(obj)
  {
    var text := before + obj + after;
    var i, j := |before|, |before| + |obj|;
    assert IsMatch(text, i, j);
    var r := MatchObject(text);
    var i0, j0 :| LeftmostLongest(text, i0, j0) && r.value == text[i0..j0];
    assert i0 == i && j0 == j;
    assert text[i..j] == obj;
  }
}

=== FILE: prompts.dfy ===
/** The generation service of the canonical front-end: the three prompt
    templates, the answer-merge context built from answered questions, and how
    each backend reply becomes a script or a question list. The backend call
    itself is a parameter: a `Reply` is whatever the call produced. */
module Prompts {
  import opened Wrappers
  import opened Text
  import opened Draft
  import Sections

  /** A question as the backend's structured reply describes it. */
  datatype RawQuestion = RawQuestion(id: int, question: string, reason: string)

  /** What an awaited `generateContent` call produced: it threw, or it
      returned a response whose `text` may be absent. */
  datatype Reply = Threw | Responded(text: Option<string>)

  /** `response.text || fallback`: an absent or empty text falls back. */
  function TextOr(text: Option<string>, fallback: string): (s: string)
    ensures text.Some? && text.value != [] ==> s == text.value
    ensures text.None? || text.value == [] ==> s == fallback
  {
    match text
    case Some(t) => if t != [] then t else fallback
    case None => fallback
  }

  /** The outcome of `generateInitialScript` and of `updateScript`: a call
      that throws propagates, an absent or empty text becomes "", any other
      text is the script verbatim. */
  function ScriptResult(reply: Reply): (r: Option<string>)
    ensures r.None? <==> reply.Threw?
    ensures r == Some([]) <==> reply.Responded? && (reply.text.None? || reply.text.value == [])
    ensures r.Some? && r.value != [] ==> reply == Responded(Some(r.value))
  {
    match reply
    case Threw => None
    case Responded(text) => Some(TextOr(text, ""))
  }

  /** Drops the answer of a question, giving back what the backend sent. */
  function Unanswered(q: Question): RawQuestion {
    RawQuestion(q.id, q.question, q.reason)
  }

  /** `questions.map(q => ({ ...q, answer: "" }))`: same length and order,
      every id, question and reason kept as sent, every answer empty. */
  function WithEmptyAnswers(raw: seq<RawQuestion>): (qs: seq<Question>)
    ensures |qs| == |raw|
    ensures forall i :: 0 <= i < |qs| ==> Unanswered(qs[i]) == raw[i] && qs[i].answer == []
  {
    seq(|raw|, i requires 0 <= i < |raw| => Question(raw[i].id, raw[i].question, raw[i].reason, ""))
  }

  /** Fresh questions carry no answer, so none of them would be merged. */
  lemma FreshQuestionsUnanswered(raw: seq<RawQuestion>)
    ensures !HasAnyAnswer(WithEmptyAnswers(raw))
  {
  }

  /** The outcome of `generateQuestions`: `decode` stands for `JSON.parse`
      followed by reading an array of question objects (None when the text is
      not such an array, which makes the call throw). An absent or empty text
      is decoded as "[]". Every question comes back unanswered. */
  function QuestionsResult(reply: Reply, decode: string -> Option<seq<RawQuestion>>): (r: Option<seq<Question>>)
    ensures reply.Threw? ==> r.None?
    ensures reply.Responded? ==>
      var parsed := decode(TextOr(reply.text, "[]"));
      && (r.Some? <==> parsed.Some?)
      && (r.Some? ==> |r.value| == |parsed.value|
                      && forall i :: 0 <= i < |r.value| ==> Unanswered(r.value[i]) == parsed.value[i])
    ensures r.Some? ==> !HasAnyAnswer(r.value)
    ensures r.Some? ==> forall i :: 0 <= i < |r.value| ==> r.value[i].answer == []
  {
    match reply
    case Threw => None
    case Responded(text) =>
      match decode(TextOr(text, "[]"))
      case None => None
      case Some(raw) =>
        FreshQuestionsUnanswered(raw);
        Some(WithEmptyAnswers(raw))
  }

  /** With a faithful decoder, an absent or empty reply yields no questions. */
  lemma EmptyReplyNoQuestions(decode: string -> Option<seq<RawQuestion>>)
    requires decode("[]") == Some([])
    ensures QuestionsResult(Responded(None), decode) == Some([])
    ensures QuestionsResult(Responded(Some([])), decode) == Some([])
  {
  }

  // ----- Answer-merge context -----

  /** Label of the question line of a merge entry. */
  const QuestionLabel: string := "質問："

  /** Label of the answer line of a merge entry. */
  const AnswerLabel: string := "\n回答："

  /** One merge entry: the question right after its label, then the answer
      exactly as typed, untrimmed, closing the entry. */
  function Entry(q: Question): (e: string)
    ensures |e| == |QuestionLabel| + |q.question| + |AnswerLabel| + |q.answer|
    ensures OccursAt(q.question, e, |QuestionLabel|)
    ensures OccursAt(q.answer, e, |QuestionLabel| + |q.question| + |AnswerLabel|)
  {
    OccursInTemplate(QuestionLabel, q.question, AnswerLabel, q.answer, []);
    assert QuestionLabel + q.question + AnswerLabel + q.answer + [] == QuestionLabel + q.question + AnswerLabel + q.answer;
    QuestionLabel + q.question + AnswerLabel + q.answer
  }

  /** An entry opens with `質問：`, and `\n回答：` sits between the question
      and the answer. */
  lemma EntryLayout(q: Question)
    ensures OccursAt(QuestionLabel, Entry(q), 0)
    ensures OccursAt(AnswerLabel, Entry(q), |QuestionLabel| + |q.question|)
  {
  }

  /** Separator between merge entries. */
  const EntrySeparator: string := "\n\n"

  /** `.filter(q => q.answer.trim() !== "")`: the answered questions in their
      original order. */
  function AnsweredOnly(qs: seq<Question>): (r: seq<Question>)
    ensures |r| <= |qs|
    ensures forall j :: 0 <= j < |r| ==> Answered(r[j])
    ensures r == [] <==> !HasAnyAnswer(qs)
  {
    if qs == [] then []
    else
      var rest := AnsweredOnly(qs[1..]);
      HasAnyAnswerScan(qs);
      if Answered(qs[0]) then [qs[0]] + rest else rest
  }

  /** Every answered question is kept. */
  lemma {:induction false} AnsweredKept(qs: seq<Question>, i: nat)
    requires i < |qs| && Answered(qs[i])
    ensures qs[i] in AnsweredOnly(qs)
  {
    if i > 0 {
      AnsweredKept(qs[1..], i - 1);
      assert qs[1..][i - 1] == qs[i];
    }
  }

  /** The merge context: one entry per answered question, in order, joined by
      a blank line. It is empty exactly when nothing is answered. */
  function QaContext(qs: seq<Question>): (ctx: string)
    ensures ctx == [] <==> !HasAnyAnswer(qs)
  {
    var kept := AnsweredOnly(qs);
    var entries := seq(|kept|, j requires 0 <= j < |kept| => Entry(kept[j]));
    assert kept != [] ==> Join(entries, EntrySeparator) != [] by {
      if kept != [] {
        JoinKeepsParts(entries, EntrySeparator, 0);
        assert |Entry(kept[0])| > 0;
      }
    }
    Join(entries, EntrySeparator)
  }

  /** Filtering distributes over concatenation, so order is kept. */
  lemma {:induction false} AnsweredOnlyAppend(a: seq<Question>, b: seq<Question>)
    ensures AnsweredOnly(a + b) == AnsweredOnly(a) + AnsweredOnly(b)
  {
    if a != [] {
      AnsweredOnlyAppend(a[1..], b);
      assert (a + b)[1..] == a[1..] + b;
      assert (a + b)[0] == a[0];
    } else {
      assert a + b == b;
    }
  }

  /** The context of a concatenation is the two contexts joined by a blank
      line, or whichever of them is non-empty: entries appear in question
      order. */
  lemma QaContextAppend(a: seq<Question>, b: seq<Question>)
    ensures QaContext(a + b) ==
      if QaContext(a) == [] then QaContext(b)
      else if QaContext(b) == [] then QaContext(a)
      else QaContext(a) + EntrySeparator + QaContext(b)
  {
    AnsweredOnlyAppend(a, b);
    var ka, kb := AnsweredOnly(a), AnsweredOnly(b);
    var ea := seq(|ka|, j requires 0 <= j < |ka| => Entry(ka[j]));
    var eb := seq(|kb|, j requires 0 <= j < |kb| => Entry(kb[j]));
    var kab := AnsweredOnly(a + b);
    var eab := seq(|kab|, j requires 0 <= j < |kab| => Entry(kab[j]));
    assert eab == ea + eb;
    if ka == [] {
      assert eab == eb;
    } else if kb == [] {
      assert eab == ea;
    } else {
      JoinAppend(ea, eb, EntrySeparator);
    }
  }

  /** An answered question alone contributes exactly its entry. */
  lemma QaContextSingle(q: Question)
    requires Answered(q)
    ensures QaContext([q]) == Entry(q)
  {
  }

  /** A question with a blank answer contributes nothing, wherever it sits. */
  lemma QaContextSkipsBlank(a: seq<Question>, q: Question, b: seq<Question>)
    requires !Answered(q)
    ensures QaContext(a + [q] + b) == QaContext(a + b)
  {
    AnsweredOnlyAppend(a + [q], b);
    AnsweredOnlyAppend(a, [q]);
    AnsweredOnlyAppend(a, b);
    assert AnsweredOnly([q]) == [] by {
      assert [q][1..] == [];
    }
    assert AnsweredOnly(a) + [] == AnsweredOnly(a);
  }

  /** Every answered question's entry, with its untrimmed answer, appears in
      the context. */
  lemma QaContextHasEveryAnswer(qs: seq<Question>, i: nat)
    requires i < |qs| && Answered(qs[i])
    ensures Contains(QaContext(qs), Entry(qs[i]))
    ensures Contains(QaContext(qs), qs[i].answer)
  {
    var kept := AnsweredOnly(qs);
    var entries := seq(|kept|, j requires 0 <= j < |kept| => Entry(kept[j]));
    AnsweredKept(qs, i);
    var j :| 0 <= j < |kept| && kept[j] == qs[i];
    JoinKeepsParts(entries, EntrySeparator, j);
    var at := JoinOffset(entries, EntrySeparator, j);
    assert OccursAt(Entry(qs[i]), QaContext(qs), at);
    var q := qs[i];
    OccursWithin(q.answer, Entry(q), |QuestionLabel| + |q.question| + |AnswerLabel|, QaContext(qs), at);
  }

  // ----- Prompt templates -----

  /** Text of the initial prompt before the author's memo. */
  const InitialIntro: string :=
    "あなたはプロのプレゼン構成ライターです。\n"
    + "ユーザーの断片的なメモ（もやもや）を読み解き、聴衆を惹きつける「5分間」のプレゼン原稿を作成してください。\n\n"
    + "【もやもやメモ】\n"

  /** Text of the initial prompt between the memo and the section plan. */
  const InitialRules: string :=
    "\n\n【構成ルール】\n"
    + "以下の5セクション構成を厳守してください。話し言葉で、自然なトーンにしてください。\n\n"

  /** The five section headings, with their time budgets, in order. */
  const Headings: seq<string> := [
    "■ 導入（30秒）",
    "■ 背景・課題（1分）",
    "■ 提案・解決策（2分30秒）",
    "■ 根拠・期待効果（1分）",
    "■ 結び（30秒）"]

  /** What each section is asked to do, line under its heading. */
  const Guidance: seq<string> := [
    "聴衆の興味を引くフックから始めてください。",
    "なぜこの話をするのか、現在どんな問題があるのかを伝えてください。",
    "核心となるアイディアや提案を、最も時間をかけて説明してください。",
    "なぜその提案が正しいのか、どんな良いことが起きるのかを説明してください。",
    "印象的なメッセージと共に、聴衆に取ってほしいアクションを伝えてください。"]

  /** Every heading opens with the section marker, and no heading or
      guidance spans more than one line. */
  lemma PlanLines(k: nat)
    requires k < 5
    ensures |Headings[k]| > 0 && Headings[k][0] == Sections.Marker
    ensures forall i :: 0 <= i < |Headings[k]| ==> Headings[k][i] != '\n'
    ensures forall i :: 0 <= i < |Guidance[k]| ==> Guidance[k][i] != '\n'
  {
  }

  /** Heading and guidance of each section, as consecutive lines. Each
      block opens with the section marker the script display cuts at, and
      reads back, line by line, as its heading and its guidance. */
  function PlanBlocks(): (blocks: seq<string>)
    ensures |blocks| == 5
    ensures forall k :: 0 <= k < 5 ==> |blocks[k]| > 0 && blocks[k][0] == Sections.Marker
    ensures forall k :: 0 <= k < 5 ==> Split(blocks[k], '\n') == [Headings[k], Guidance[k]]
  {
    var blocks := seq(5, k requires 0 <= k < 5 => Headings[k] + "\n" + Guidance[k]);
    assert forall k :: 0 <= k < 5 ==> Split(blocks[k], '\n') == [Headings[k], Guidance[k]] by {
      forall k | 0 <= k < 5 ensures Split(blocks[k], '\n') == [Headings[k], Guidance[k]] {
        PlanLines(k);
        SplitTwo(Headings[k], Guidance[k], '\n');
      }
    }
    assert forall k :: 0 <= k < 5 ==> |blocks[k]| > 0 && blocks[k][0] == Sections.Marker by {
      forall k | 0 <= k < 5 ensures |blocks[k]| > 0 && blocks[k][0] == Sections.Marker {
        PlanLines(k);
      }
    }
    blocks
  }

  /** The prompt of `generateInitialScript`: the memo sits verbatim right
      after the intro. */
  function InitialPrompt(moyamoya: string): (p: string)
    ensures OccursAt(moyamoya, p, |InitialIntro|)
  {
    var plan := Join(PlanBlocks(), "\n");
    OccursInTemplate(InitialIntro, moyamoya, InitialRules, plan, []);
    assert InitialIntro + moyamoya + InitialRules + plan + [] == InitialIntro + moyamoya + InitialRules + plan;
    InitialIntro + moyamoya + InitialRules + plan
  }

  /** Where the k-th heading starts in the initial prompt. */
  function HeadingAt(moyamoya: string, k: nat): nat
    requires k < 5
  {
    |InitialIntro| + |moyamoya| + |InitialRules| + JoinOffset(PlanBlocks(), "\n", k)
  }

  /** Regrouping a block: the heading, then the rest of the block. */
  lemma BlockSplit(h: string, g: string)
    ensures h + "\n" + g == h + ("\n" + g)
  {
  }

  /** The k-th heading occurs at its position in the initial prompt, before
      the next one. */
  lemma InitialHeading(moyamoya: string, k: nat)
    requires k < 5
    ensures OccursAt(Headings[k], InitialPrompt(moyamoya), HeadingAt(moyamoya, k))
    ensures k < 4 ==> HeadingAt(moyamoya, k) < HeadingAt(moyamoya, k + 1)
  {
    var blocks := PlanBlocks();
    assert blocks[k] == Headings[k] + "\n" + Guidance[k];
    assert InitialPrompt(moyamoya) == InitialIntro + moyamoya + InitialRules + Join(blocks, "\n");
    BlockSplit(Headings[k], Guidance[k]);
    OccursInJoin(InitialIntro + moyamoya + InitialRules, blocks, "\n", k, Headings[k], "\n" + Guidance[k]);
    JoinKeepsParts(blocks, "\n", k);
  }

  /** The initial prompt holds the five section headings after the memo,
      each whole and in template order. */
  lemma InitialPromptLayout(moyamoya: string)
    ensures forall k :: 0 <= k < 5 ==> OccursAt(Headings[k], InitialPrompt(moyamoya), HeadingAt(moyamoya, k))
    ensures forall k :: 0 <= k < 4 ==> HeadingAt(moyamoya, k) < HeadingAt(moyamoya, k + 1)
    ensures forall k :: 0 <= k < 5 ==> HeadingAt(moyamoya, k) >= |InitialIntro| + |moyamoya|
  {
    forall k | 0 <= k < 5
      ensures OccursAt(Headings[k], InitialPrompt(moyamoya), HeadingAt(moyamoya, k))
      ensures k < 4 ==> HeadingAt(moyamoya, k) < HeadingAt(moyamoya, k + 1)
    {
      InitialHeading(moyamoya, k);
    }
  }

  /** Text of the question prompt before the script. */
  const QuestionsIntro: string :=
    "このプレゼン原稿をもっと「具体的」で「説得力のある」ものにするために、"
    + "書き手（ユーザー）に聞くべき深掘り質問を3つから5つ作成してください。\n\n"
    + "【現在の原稿】\n"

  /** Text of the question prompt after the script. */
  const QuestionsTips: string :=
    "\n\n【質問のコツ】\n"
    + "- 数字、具体的な場所、固有名詞などを聞き出す。\n"
    + "- 聴衆が疑問に思いそうなポイントを突く。\n"
    + "- 過去の失敗談や成功体験など、ストーリーに深みが出る要素を聞く。\n\n"
    + "【出力形式】\n"
    + "JSON配列形式で出力してください。"

  /** The prompt of `generateQuestions`: the script sits verbatim after the
      intro. The memo is accepted but unused. */
  function QuestionsPrompt(moyamoya: string, script: string): (p: string)
    ensures OccursAt(script, p, |QuestionsIntro|)
  {
    OccursInMiddle(QuestionsIntro, script, QuestionsTips);
    QuestionsIntro + script + QuestionsTips
  }

  /** The question prompt does not depend on the memo. */
  lemma QuestionsPromptIgnoresMemo(moyamoya: string, other: string, script: string)
    ensures QuestionsPrompt(moyamoya, script) == QuestionsPrompt(other, script)
  {
  }

  /** Text of the update prompt before the current script. */
  const UpdateIntro: string :=
    "以下の「追加情報（ユーザーの回答）」を、現在のプレゼン原稿の適切な場所に「具体的」に組み込んで、"
    + "原稿を大幅に進化させてください。\n\n"
    + "【現在の原稿】\n"

  /** Text of the update prompt between the script and the merge context. */
  const UpdateMiddle: string := "\n\n【追加情報】\n"

  /** The update instructions after the merge context. */
  const UpdateRules: string :=
    "\n\n【アップデートの指示】\n"
    + "1. 追加された情報を単に並べるのではなく、自然な文脈として原稿の中に溶け込ませてください。\n"
    + "2. 数字や具体的な名称がある場合は、必ず原稿内に明記してください。\n"
    + "3. 5セクションの構成（■の見出し）はそのまま維持してください。\n"
    + "4. 全体の長さは5分（約1500〜1800文字程度）をキープしてください。"

  /** The prompt of `updateScript`: the current script and then the merge
      context, both verbatim, at fixed offsets. */
  function UpdatePrompt(currentScript: string, qaPairs: seq<Question>): (p: string)
    ensures OccursAt(currentScript, p, |UpdateIntro|)
    ensures OccursAt(QaContext(qaPairs), p, |UpdateIntro| + |currentScript| + |UpdateMiddle|)
  {
    OccursInTemplate(UpdateIntro, currentScript, UpdateMiddle, QaContext(qaPairs), UpdateRules);
    UpdateIntro + currentScript + UpdateMiddle + QaContext(qaPairs) + UpdateRules
  }
}

=== FILE: sections.dfy ===
/** How the canonical front-end shows a script: the text is cut at every
    section marker, blank pieces are dropped, and each remaining piece shows
    its first line as the heading and the trimmed rest as the body. */
module Sections {
  import opened Text

  /** The section marker the script template uses. */
  const Marker: char := '■'

  /** One rendered section. */
  datatype Section = Section(header: string, body: string)

  /** A section shows something: a non-blank heading or a non-empty body. */
  predicate Visible(sec: Section) {
    !IsBlank(sec.header) || sec.body != []
  }

  /** What every rendered section satisfies: it is visible and its heading
      is a single line; neither heading nor body holds a marker. */
  predicate Displayable(sec: Section) {
    && Visible(sec)
    && '\n' !in sec.header
    && Marker !in sec.header
    && Marker !in sec.body
  }

  /** One piece between markers: the heading is `part.split('\n')[0]`, the
      body is the other lines joined back with newlines and trimmed. The
      heading is the text before the first newline; the body is the trimmed
      text after it. */
  function SectionOf(part: string): (sec: Section)
    ensures '\n' !in sec.header
    ensures |sec.header| <= |part| && sec.header == part[..|sec.header|]
    ensures |sec.header| == |part| ==> sec.body == []
    ensures |sec.header| < |part| ==>
      part[|sec.header|] == '\n' && sec.body == Trim(part[|sec.header| + 1..])
  {
    var lines := Split(part, '\n');
    SplitFirst(part, '\n');
    assert |lines| > 1 ==> part[|lines[0]| + 1..] == Join(lines[1..], "\n");
    Section(lines[0], Trim(Join(lines[1..], "\n")))
  }

  /** A non-blank piece renders as a visible section. */
  lemma SectionOfVisible(part: string)
    requires !IsBlank(part)
    ensures Visible(SectionOf(part))
  {
  }

  /** A marker-free piece renders without a marker. */
  lemma SectionOfMarkerFree(part: string)
    requires Marker !in part
    ensures Marker !in SectionOf(part).header && Marker !in SectionOf(part).body
  {
  }

  /** `.filter(s => s.trim()).map(...)` over the pieces. */
  function Keep(parts: seq<string>): (secs: seq<Section>)
    requires forall j :: 0 <= j < |parts| ==> Marker !in parts[j]
    ensures |secs| <= |parts|
    ensures forall k :: 0 <= k < |secs| ==> Displayable(secs[k])
  {
    if parts == [] then []
    else
      var rest := Keep(parts[1..]);
      if IsBlank(parts[0]) then rest
      else
        SectionOfVisible(parts[0]);
        SectionOfMarkerFree(parts[0]);
        [SectionOf(parts[0])] + rest
  }

  /** The first piece is kept or dropped on its own; the rest are kept as
      if it were not there. */
  lemma KeepCons(part: string, rest: seq<string>)
    requires Marker !in part
    requires forall j :: 0 <= j < |rest| ==> Marker !in rest[j]
    ensures Keep([part] + rest) == (if IsBlank(part) then [] else [SectionOf(part)]) + Keep(rest)
  {
  }

  /** One piece alone: dropped when blank, otherwise read as a section. */
  lemma KeepSingle(part: string)
    requires Marker !in part
    ensures Keep([part]) == if IsBlank(part) then [] else [SectionOf(part)]
  {
  }

  /** A non-empty list is its head before its tail, also when followed by
      more. */
  lemma ConsAppend<T>(a: seq<T>, b: seq<T>)
    requires a != []
    ensures a == [a[0]] + a[1..]
    ensures a + b == [a[0]] + (a[1..] + b)
  {
  }

  /** Two marker-free lists of pieces make one. */
  lemma AppendMarkerFree(a: seq<string>, b: seq<string>)
    requires forall j :: 0 <= j < |a| ==> Marker !in a[j]
    requires forall j :: 0 <= j < |b| ==> Marker !in b[j]
    ensures forall j :: 0 <= j < |a + b| ==> Marker !in (a + b)[j]
  {
  }

  /** Keeping distributes over concatenation: blank pieces vanish wherever
      they sit, and the other pieces keep their order. */
  lemma {:induction false} KeepAppend(a: seq<string>, b: seq<string>)
    requires forall j :: 0 <= j < |a| ==> Marker !in a[j]
    requires forall j :: 0 <= j < |b| ==> Marker !in b[j]
    ensures Keep(a + b) == Keep(a) + Keep(b)
  {
    if a == [] {
      assert a + b == b;
    } else {
      var tail := a[1..] + b;
      AppendMarkerFree(a[1..], b);
      ConsAppend(a, b);
      KeepAppend(a[1..], b);
      KeepCons(a[0], tail);
    }
  }

  /** The sections of a script, in order. Every section is visible and its
      heading holds neither a marker nor a newline; there are at most as many
      sections as markers plus one; a blank script has none. */
  function SectionsOf(script: string): (secs: seq<Section>)
    ensures |secs| <= Count(script, Marker) + 1
    ensures forall k :: 0 <= k < |secs| ==> Displayable(secs[k])
    ensures IsBlank(script) ==> secs == []
  {
    var parts := Split(script, Marker);
    assert IsBlank(script) ==> parts == [script] by {
      if IsBlank(script) {
        forall k | 0 <= k < |script| ensures script[k] != Marker {
          assert IsSpace(script[k]);
        }
        SplitWithout(script, Marker);
      }
    }
    Keep(parts)
  }

  /** A script without markers that is not blank is one section: its first
      line is the heading. */
  lemma NoMarkerOneSection(script: string)
    requires !IsBlank(script) && Marker !in script
    ensures SectionsOf(script) == [SectionOf(script)]
  {
    SplitWithout(script, Marker);
  }

  /** A section a writer would produce under the template: a non-blank
      single-line heading, a trimmed body, no stray markers. */
  predicate WellFormed(sec: Section) {
    && !IsBlank(sec.header)
    && '\n' !in sec.header
    && Marker !in sec.header
    && Marker !in sec.body
    && Trim(sec.body) == sec.body
  }

  /** The text of one section after its marker. */
  function Piece(sec: Section): string {
    sec.header + "\n" + sec.body
  }

  /** A script written as marker, heading line and body, once per section. */
  function Render(secs: seq<Section>): string {
    if secs == [] then [] else [Marker] + Piece(secs[0]) + Render(secs[1..])
  }

  /** The pieces of a rendered script, each preceded by a marker. */
  function Pieces(secs: seq<Section>): seq<string> {
    if secs == [] then [] else [Piece(secs[0])] + Pieces(secs[1..])
  }

  /** A well-formed section's piece holds no marker. */
  lemma PieceMarkerFree(sec: Section)
    requires WellFormed(sec)
    ensures Marker !in Piece(sec)
  {
  }

  /** Splitting a rendered script yields an empty lead-in and then one piece
      per section. */
  lemma {:induction false} SplitRender(secs: seq<Section>)
    requires forall k :: 0 <= k < |secs| ==> Marker !in Piece(secs[k])
    ensures Split(Render(secs), Marker) == [[]] + Pieces(secs)
  {
    if secs == [] {
      assert Render(secs) == [];
    } else {
      var p := Piece(secs[0]);
      var r := Render(secs[1..]);
      var tail := Pieces(secs[1..]);
      assert Marker !in p;
      SplitRender(secs[1..]);
      assert Split(r, Marker) == [[]] + tail;
      assert Render(secs) == [Marker] + (p + r);
      SplitAfterSeparator(Marker, p + r);
      SplitPrefix(p, r, Marker);
      assert Split(p + r, Marker) == [p] + tail by {
        assert Split(r, Marker)[0] == [];
        assert Split(r, Marker)[1..] == tail;
        assert p + [] == p;
      }
      assert Pieces(secs) == [p] + tail;
    }
  }

  /** Reading back one rendered piece recovers the section. */
  lemma SectionOfPiece(sec: Section)
    requires WellFormed(sec)
    ensures SectionOf(Piece(sec)) == sec
  {
    var h := sec.header;
    assert Piece(sec) == h + ("\n" + sec.body);
    SplitPrefix(h, "\n" + sec.body, '\n');
    SplitAfterSeparator('\n', sec.body);
    JoinSplit(sec.body, '\n');
    assert h + [] == h;
  }

  /** A well-formed section's piece is not blank: its heading is not. */
  lemma PieceNotBlank(sec: Section)
    requires !IsBlank(sec.header)
    ensures !IsBlank(Piece(sec))
  {
    var k :| 0 <= k < |sec.header| && !IsSpace(sec.header[k]);
    assert Piece(sec)[k] == sec.header[k];
  }

  /** Pieces of well-formed sections hold no marker. */
  lemma {:induction false} PiecesMarkerFree(secs: seq<Section>)
    requires forall k :: 0 <= k < |secs| ==> WellFormed(secs[k])
    ensures forall j :: 0 <= j < |Pieces(secs)| ==> Marker !in Pieces(secs)[j]
  {
    if secs != [] {
      PiecesMarkerFree(secs[1..]);
      PieceMarkerFree(secs[0]);
      assert Pieces(secs) == [Piece(secs[0])] + Pieces(secs[1..]);
    }
  }

  /** Keeping the pieces of well-formed sections reads each one back. */
  lemma {:induction false} KeepPieces(secs: seq<Section>)
    requires forall k :: 0 <= k < |secs| ==> WellFormed(secs[k])
    ensures forall j :: 0 <= j < |Pieces(secs)| ==> Marker !in Pieces(secs)[j]
    ensures Keep(Pieces(secs)) == secs
  {
    PiecesMarkerFree(secs);
    if secs != [] {
      var p := Piece(secs[0]);
      var tail := Pieces(secs[1..]);
      KeepPieces(secs[1..]);
      assert Pieces(secs) == [p] + tail;
      assert Pieces(secs)[1..] == tail;
      PieceNotBlank(secs[0]);
      SectionOfPiece(secs[0]);
      assert Keep(Pieces(secs)) == [SectionOf(p)] + Keep(tail);
    }
  }

  /** Round trip: the sections shown for a rendered script are exactly the
      sections it was written from, in order. */
  lemma {:induction false} SectionsOfRender(secs: seq<Section>)
    requires forall k :: 0 <= k < |secs| ==> WellFormed(secs[k])
    ensures SectionsOf(Render(secs)) == secs
  {
    forall k | 0 <= k < |secs| ensures Marker !in Piece(secs[k]) {
      PieceMarkerFree(secs[k]);
    }
    SplitRender(secs);
    KeepPieces(secs);
    var parts := [[]] + Pieces(secs);
    assert IsBlank(parts[0]);
    assert parts[1..] == Pieces(secs);
  }

  /** Text before the first marker is read as a section of its own, headed
      by its first line, unless it is blank; the sections after it come back
      as written. */
  lemma SectionsOfLeadRender(lead: string, secs: seq<Section>)
    requires Marker !in lead
    requires forall k :: 0 <= k < |secs| ==> WellFormed(secs[k])
    ensures SectionsOf(lead + Render(secs)) == (if IsBlank(lead) then [] else [SectionOf(lead)]) + secs
  {
    forall k | 0 <= k < |secs| ensures Marker !in Piece(secs[k]) {
      PieceMarkerFree(secs[k]);
    }
    SplitRender(secs);
    SplitPrefix(lead, Render(secs), Marker);
    assert lead + [] == lead;
    var parts := [lead] + Pieces(secs);
    assert Split(lead + Render(secs), Marker) == parts;
    PiecesMarkerFree(secs);
    KeepAppend([lead], Pieces(secs));
    KeepSingle(lead);
    KeepPieces(secs);
  }
}

=== FILE: text.dfy ===
/** String operations the front-ends use: JavaScript's `trim`, `split` on a
    single character, `join`, and substring occurrence. */
module Text {

  /** The code points `String.prototype.trim` strips: the ECMAScript
      WhiteSpace (tab, vertical tab, form feed, BOM and every Zs space) and
      LineTerminator classes. */
  predicate IsSpace(c: char) {
    || c == ' ' || c == '\t' || c == '\n' || c == '\r'
    || c == '\U{000B}' || c == '\U{000C}' || c == '\U{00A0}' || c == '\U{1680}'
    || ('\U{2000}' <= c <= '\U{200A}')
    || c == '\U{2028}' || c == '\U{2029}' || c == '\U{202F}' || c == '\U{205F}'
    || c == '\U{3000}' || c == '\U{FEFF}'
  }

  /** Every character of `s` is whitespace. By the contract of `Trim`, this
      is exactly what `!s.trim()` tests: JavaScript treats the trimmed string
      as false when it is empty. */
  predicate IsBlank(s: string) {
    forall i :: 0 <= i < |s| ==> IsSpace(s[i])
  }

  /** Number of whitespace characters at the start of `s`. */
  function Lead(s: string): (n: nat)
    ensures n <= |s|
    ensures forall i :: 0 <= i < n ==> IsSpace(s[i])
    ensures n < |s| ==> !IsSpace(s[n])
  {
    if s != [] && IsSpace(s[0]) then 1 + Lead(s[1..]) else 0
  }

  /** Number of whitespace characters at the end of `s`. */
  function Trail(s: string): (n: nat)
    ensures n <= |s|
    ensures forall i :: |s| - n <= i < |s| ==> IsSpace(s[i])
    ensures n < |s| ==> !IsSpace(s[|s| - 1 - n])
  {
    if s != [] && IsSpace(s[|s| - 1]) then 1 + Trail(s[..|s| - 1]) else 0
  }

  /** `s.trim()`: `s` without its leading and trailing whitespace. The result
      is the slice of `s` starting at `Lead(s)`; it is empty exactly when `s`
      is all whitespace, and otherwise starts and ends with a non-space. */
  function Trim(s: string): (r: string)
    ensures Lead(s) + |r| <= |s| && r == s[Lead(s)..Lead(s) + |r|]
    ensures forall i :: Lead(s) + |r| <= i < |s| ==> IsSpace(s[i])
    ensures r == [] <==> IsBlank(s)
    ensures r != [] ==> !IsSpace(r[0]) && !IsSpace(r[|r| - 1])
  {
    if Lead(s) == |s| then []
    else
      assert !IsSpace(s[Lead(s)]);
      s[Lead(s)..|s| - Trail(s)]
  }

  /** Trimming twice is trimming once. */
  lemma TrimIdempotent(s: string)
    ensures Trim(Trim(s)) == Trim(s)
  {
  }

  /** Number of occurrences of `c` in `s`. */
  function Count(s: string, c: char): nat {
    if s == [] then 0 else (if s[0] == c then 1 else 0) + Count(s[1..], c)
  }

  /** `s.split(c)` for a one-character separator: the maximal runs of `s`
      between occurrences of `c`, one more than there are separators. */
  function Split(s: string, c: char): (parts: seq<string>)
    ensures |parts| == Count(s, c) + 1
    ensures forall k :: 0 <= k < |parts| ==> c !in parts[k]
  {
    if s == [] then [[]]
    else
      var rest := Split(s[1..], c);
      if s[0] == c then [[]] + rest
      else [[s[0]] + rest[0]] + rest[1..]
  }

  /** `parts.join(sep)`. */
  function Join(parts: seq<string>, sep: string): string {
    if parts == [] then []
    else if |parts| == 1 then parts[0]
    else parts[0] + sep + Join(parts[1..], sep)
  }

  /** Joining the pieces of a split with the separator gives back the string. */
  lemma {:induction false} JoinSplit(s: string, c: char)
    ensures Join(Split(s, c), [c]) == s
  {
    if s != [] {
      var rest := Split(s[1..], c);
      JoinSplit(s[1..], c);
      if s[0] == c {
        assert Split(s, c) == [[]] + rest;
        assert ([[]] + rest)[1..] == rest;
      } else {
        var parts := Split(s, c);
        assert parts[1..] == rest[1..];
        if |rest| == 1 {
          assert s == [s[0]] + s[1..];
        } else {
          assert Join(rest, [c]) == rest[0] + [c] + Join(rest[1..], [c]);
          assert s == [s[0]] + s[1..];
        }
      }
    }
  }

  /** Splitting at a leading separator yields an empty first piece. */
  lemma SplitAfterSeparator(c: char, x: string)
    ensures Split([c] + x, c) == [[]] + Split(x, c)
  {
  }

  /** A separator-free prefix is glued onto the first piece of the rest. */
  lemma {:induction false} SplitPrefix(u: string, x: string, c: char)
    requires c !in u
    ensures Split(u + x, c) == [u + Split(x, c)[0]] + Split(x, c)[1..]
  {
    if u != [] {
      SplitPrefix(u[1..], x, c);
      assert (u + x)[1..] == u[1..] + x;
      assert (u + x)[0] == u[0];
      assert [u[0]] + (u[1..] + Split(x, c)[0]) == u + Split(x, c)[0];
    } else {
      var parts := Split(x, c);
      assert u + x == x;
      assert u + parts[0] == parts[0];
      assert parts == [parts[0]] + parts[1..];
    }
  }

  /** A string without the separator splits into itself. */
  lemma SplitWithout(s: string, c: char)
    requires c !in s
    ensures Split(s, c) == [s]
  {
    SplitPrefix(s, [], c);
    assert s + [] == s;
  }

  /** Two separator-free lines joined by one separator split back into
      exactly those two lines. */
  lemma SplitTwo(h: string, g: string, c: char)
    requires forall i :: 0 <= i < |h| ==> h[i] != c
    requires forall i :: 0 <= i < |g| ==> g[i] != c
    ensures Split(h + [c] + g, c) == [h, g]
  {
    assert h + [c] + g == h + ([c] + g);
    SplitPrefix(h, [c] + g, c);
    SplitAfterSeparator(c, g);
    SplitWithout(g, c);
    assert h + [] == h;
  }

  /** The first piece of a split is the text before the first separator; the
      remaining pieces, joined back, are the text after it. */
  lemma SplitFirst(s: string, c: char)
    ensures var parts := Split(s, c);
      && (|parts| == 1 ==> parts[0] == s)
      && (|parts| > 1 ==> s == parts[0] + [c] + Join(parts[1..], [c]))
  {
  }

  /** `sub` occurs in `s` starting at index `i`. */
  predicate OccursAt(sub: string, s: string, i: int) {
    0 <= i && i + |sub| <= |s| && s[i..i + |sub|] == sub
  }

  /** `s.includes(sub)`. */
  predicate Contains(s: string, sub: string) {
    exists i :: 0 <= i <= |s| && OccursAt(sub, s, i)
  }

  /** The middle of a three-part concatenation occurs right after the first part. */
  lemma OccursInMiddle(a: string, x: string, b: string)
    ensures OccursAt(x, a + x + b, |a|)
  {
  }

  /** The two holes of a five-part template occur where the template puts them. */
  lemma OccursInTemplate(a: string, x: string, b: string, y: string, c: string)
    ensures OccursAt(x, a + x + b + y + c, |a|)
    ensures OccursAt(y, a + x + b + y + c, |a| + |x| + |b|)
  {
  }

  /** An occurrence survives wrapping the string in more text. */
  lemma OccursShift(x: string, s: string, i: int, a: string, b: string)
    requires OccursAt(x, s, i)
    ensures OccursAt(x, a + s + b, |a| + i)
  {
  }

  /** An occurrence inside an occurrence is an occurrence in the outer text. */
  lemma OccursWithin(x: string, y: string, j: int, s: string, i: int)
    requires OccursAt(x, y, j) && OccursAt(y, s, i)
    ensures OccursAt(x, s, i + j)
  {
    forall m | 0 <= m < |x| ensures s[i + j + m] == x[m] {
      assert y[j + m] == y[j..j + |x|][m];
      assert s[i + j + m] == s[i..i + |y|][j + m];
    }
    assert s[i + j..i + j + |x|] == x;
  }

  /** Start of `parts[k]` inside `Join(parts, sep)`. */
  function JoinOffset(parts: seq<string>, sep: string, k: nat): nat
    requires k < |parts|
  {
    if k == 0 then 0 else |parts[0]| + |sep| + JoinOffset(parts[1..], sep, k - 1)
  }

  /** Every part occurs in the join at its offset, and offsets grow with the
      index: a join keeps its parts whole and in order. */
  lemma {:induction false} JoinKeepsParts(parts: seq<string>, sep: string, k: nat)
    requires k < |parts|
    ensures OccursAt(parts[k], Join(parts, sep), JoinOffset(parts, sep, k))
    ensures k + 1 < |parts| ==>
      JoinOffset(parts, sep, k) + |parts[k]| + |sep| == JoinOffset(parts, sep, k + 1)
  {
    if |parts| == 1 {
      assert Join(parts, sep) == parts[0];
    } else if k == 0 {
      OccursInMiddle([], parts[0], sep + Join(parts[1..], sep));
      assert [] + parts[0] + (sep + Join(parts[1..], sep)) == Join(parts, sep);
    } else {
      JoinKeepsParts(parts[1..], sep, k - 1);
      OccursShift(parts[k], Join(parts[1..], sep), JoinOffset(parts[1..], sep, k - 1),
        parts[0] + sep, []);
      assert parts[0] + sep + Join(parts[1..], sep) + [] == Join(parts, sep);
    }
  }

  /** A part that starts with `head`, joined after `before`, puts `head` at
      the part's offset past `before`. */
  lemma OccursInJoin(before: string, parts: seq<string>, sep: string, k: nat, head: string, tail: string)
    requires k < |parts| && parts[k] == head + tail
    ensures OccursAt(head, before + Join(parts, sep), |before| + JoinOffset(parts, sep, k))
  {
  }

  /** A join of two non-empty lists puts the separator between their joins. */
  lemma {:induction false} JoinAppend(a: seq<string>, b: seq<string>, sep: string)
    requires a != [] && b != []
    ensures Join(a + b, sep) == Join(a, sep) + sep + Join(b, sep)
  {
    if |a| == 1 {
      assert (a + b)[1..] == b;
    } else {
      JoinAppend(a[1..], b, sep);
      assert (a + b)[1..] == a[1..] + b;
    }
  }
}

=== FILE: viewer.dfy ===
/** The slide-deck front-end: one text box, one generate button, and a viewer
    that pages through the generated slides. The awaited call is split into
    its synchronous start and its settled outcome, which the generation
    service turns into a presentation or one error message. */
module Viewer {
  import opened Wrappers
  import opened Text
  import opened Deck
  import opened Extract

  /** The component state: the input, the busy flag, the presentation shown,
      the error shown and the index of the current slide. */
  datatype Screen = Screen(
    userInput: string,
    isLoading: bool,
    presentation: Option<GeneratedPresentation>,
    error: Option<string>,
    index: int)

  /** The message for a click with a blank input. */
  const BlankInputMessage: string := "もやもやを入力してください"

  /** The state on first render. */
  function Initial(): Screen {
    Screen([], false, None, None, 0)
  }

  /** Typing into the text box; it is disabled while loading. */
  function TypeInput(s: Screen, text: string): (t: Screen)
    requires !s.isLoading
    ensures t.userInput == text
    ensures t.(userInput := s.userInput) == s
  {
    s.(userInput := text)
  }

  /** What `handleGenerate` does before it awaits: busy, no error, no deck. */
  function BeginGenerate(s: Screen): (t: Screen)
    ensures t.isLoading && t.error.None? && t.presentation.None?
    ensures t.userInput == s.userInput && t.index == s.index
  {
    s.(isLoading := true, error := None, presentation := None)
  }

  /** What `handleGenerate` does once the call settles: show the deck from its
      first slide, or show the error message and keep the index. The busy
      flag is cleared either way. */
  function FinishGenerate(s: Screen, outcome: Result<GeneratedPresentation, string>): (t: Screen)
    ensures !t.isLoading && t.userInput == s.userInput
    ensures outcome.Success? ==> t.presentation == Some(outcome.value) && t.index == 0 && t.error == s.error
    ensures outcome.Failure? ==> t.error == Some(outcome.error) && t.presentation == s.presentation && t.index == s.index
  {
    match outcome
    case Success(p) => s.(presentation := Some(p), index := 0, isLoading := false)
    case Failure(m) => s.(error := Some(m), isLoading := false)
  }

  /** `handleGenerate` from click to settlement. A blank input only shows
      the input message. Otherwise the old deck and error are cleared; then
      the new deck is shown from its first slide, or the generic failure
      message is shown with no deck. */
  function HandleGenerate(s: Screen, reply: Option<string>, decode: string -> Option<GeneratedPresentation>): (t: Screen)
    requires !s.isLoading
    ensures !t.isLoading && t.userInput == s.userInput
    ensures IsBlank(s.userInput) ==> t == s.(error := Some(BlankInputMessage))
    ensures !IsBlank(s.userInput) ==>
      match GeneratePresentation(reply, decode)
      case Success(p) => t.presentation == Some(p) && t.index == 0 && t.error.None?
      case Failure(_) => t.presentation.None? && t.error == Some(GenerateFailedMessage) && t.index == s.index
  {
    if IsBlank(s.userInput) then s.(error := Some(BlankInputMessage))
    else FinishGenerate(BeginGenerate(s), GeneratePresentation(reply, decode))
  }

  /** `nextSlide`: moves forward exactly when a deck is shown and the current
      slide is not its last; otherwise nothing changes. */
  function NextSlide(s: Screen): (t: Screen)
    ensures t.index == s.index + 1 <==> s.presentation.Some? && s.index < |s.presentation.value.slides| - 1
    ensures t.index != s.index + 1 ==> t == s
    ensures t.(index := s.index) == s
  {
    if s.presentation.Some? && s.index < |s.presentation.value.slides| - 1 then s.(index := s.index + 1)
    else s
  }

  /** `prevSlide`: moves back exactly when the current slide is not the first;
      otherwise nothing changes. */
  function PrevSlide(s: Screen): (t: Screen)
    ensures t.index == s.index - 1 <==> s.index > 0
    ensures t.index != s.index - 1 ==> t == s
    ensures t.(index := s.index) == s
  {
    if s.index > 0 then s.(index := s.index - 1) else s
  }

  /** A dot under the slide: jumps to slide `k` of the deck shown. */
  function SelectSlide(s: Screen, k: int): (t: Screen)
    requires s.presentation.Some? && 0 <= k < |s.presentation.value.slides|
    ensures t.index == k && t.(index := s.index) == s
  {
    s.(index := k)
  }

  /** The index never goes negative, and points at a slide of the deck shown
      whenever that deck has any. */
  predicate InBounds(s: Screen) {
    && 0 <= s.index
    && (s.presentation.Some? && s.presentation.value.slides != [] ==> s.index < |s.presentation.value.slides|)
  }

  /** The slide the viewer renders, when there is one: the slide at the
      index that the counter and the highlighted dot show. */
  function Current(s: Screen): (slide: Option<Slide>)
    requires InBounds(s)
    ensures slide.Some? <==> s.presentation.Some? && s.presentation.value.slides != []
    ensures slide.Some? ==> slide.value == s.presentation.value.slides[s.index]
  {
    if s.presentation.Some? && s.presentation.value.slides != [] then
      Some(s.presentation.value.slides[s.index])
    else None
  }

  /** The first render is in bounds. */
  lemma InitialInBounds()
    ensures InBounds(Initial())
  {
  }

  /** Every handler keeps the index in bounds. */
  lemma HandlersKeepInBounds(s: Screen, text: string, reply: Option<string>, decode: string -> Option<GeneratedPresentation>, k: int)
    requires InBounds(s)
    ensures !s.isLoading ==> InBounds(TypeInput(s, text))
    ensures !s.isLoading ==> InBounds(HandleGenerate(s, reply, decode))
    ensures InBounds(NextSlide(s)) && InBounds(PrevSlide(s))
    ensures s.presentation.Some? && 0 <= k < |s.presentation.value.slides| ==> InBounds(SelectSlide(s, k))
  {
  }

  /** A freshly shown deck with slides starts on its first slide. */
  lemma GeneratedDeckStartsAtFirst(s: Screen, reply: Option<string>, decode: string -> Option<GeneratedPresentation>)
    requires !s.isLoading && !IsBlank(s.userInput)
    requires GeneratePresentation(reply, decode).Success?
    requires GeneratePresentation(reply, decode).value.slides != []
    ensures InBounds(HandleGenerate(s, reply, decode))
    ensures Current(HandleGenerate(s, reply, decode)) == Some(GeneratePresentation(reply, decode).value.slides[0])
  {
  }

  /** Going forward then back returns to the same slide, and so does going
      back then forward from an in-bounds slide. */
  lemma NextPrevInverse(s: Screen)
    requires InBounds(s)
    ensures NextSlide(s) != s ==> PrevSlide(NextSlide(s)) == s
    ensures PrevSlide(s) != s && s.presentation.Some? && s.presentation.value.slides != [] ==>
      NextSlide(PrevSlide(s)) == s
  {
  }

  /** Pressing next from the last slide, or prev from the first, changes
      nothing. */
  lemma EndsAreStops(s: Screen)
    requires s.presentation.Some? && s.presentation.value.slides != []
    ensures s.index == |s.presentation.value.slides| - 1 ==> NextSlide(s) == s
    ensures s.index == 0 ==> PrevSlide(s) == s
  {
  }

  /** Pressing next `n` times. */
  function NextTimes(s: Screen, n: nat): Screen
    decreases n
  {
    if n == 0 then s else NextTimes(NextSlide(s), n - 1)
  }

  /** Pressing next `n` times moves `n` slides forward but stops at the last
      slide, and changes nothing but the index. */
  lemma {:induction false} NextTimesSaturates(s: Screen, n: nat)
    requires s.presentation.Some? && 0 <= s.index
    ensures var last := |s.presentation.value.slides| - 1;
      NextTimes(s, n).index == if s.index + n <= last then s.index + n
                               else if s.index <= last then last
                               else s.index
    ensures NextTimes(s, n).(index := s.index) == s
    decreases n
  {
    if n > 0 {
      NextTimesSaturates(NextSlide(s), n - 1);
    }
  }
}

=== FILE: workflow.dfy ===
/** The draft lifecycle of the canonical front-end as a reducer: every handler
    is a pure transition on the view (draft, progress step, toast), and the
    load and save effects move the draft to and from the one storage slot.
    Backend outcomes, timestamps and the reset confirmation are inputs. */
module Workflow {
  import opened Wrappers
  import opened Text
  import opened Draft
  import Prompts

  const EmptyMemoMessage: string := "今の「もやもや」を教えてくださいね。"
  const GenerateFailedMessage: string := "原稿の生成に失敗しました。もう一度試してみてください。"
  const NoAnswerMessage: string := "質問に回答を入力してから「磨き上げる」を押してください。"
  const UpdateFailedMessage: string := "原稿の更新に失敗しました。"
  const ScriptReadyToast: string := "原稿ができました！"
  const ScriptRefinedToast: string := "内容を反映して、原稿がさらに進化しました！"

  /** What the component holds: the draft, the progress step (1 = writing the
      memo, 2 = script shown) and the success toast. */
  datatype View = View(app: AppState, activeStep: int, toast: Option<string>)

  /** The first render; `createdNow` and `updatedNow` are the two timestamps
      read at mount. */
  function Start(createdNow: string, updatedNow: string): View {
    View(InitialState(createdNow, updatedNow), 1, None)
  }

  /** `handleError`: the new message replaces any shown one, and nothing else
      in the view changes. */
  function ShowError(v: View, msg: string): (w: View)
    ensures w.app.error == Some(msg)
    ensures w.(app := w.app.(error := v.app.error)) == v
  {
    v.(app := v.app.(error := Some(msg)))
  }

  /** `generateInitial`, run to completion. `script` and `questions` are the
      outcomes of the two awaited calls (None when a call threw; the second is
      only consulted when the first succeeded). A blank memo is refused
      without a call. Script and questions are committed together or not at
      all, so a failing question call discards the new script too. The memo,
      version and creation time never change, and the busy flag is down on
      every exit. */
  function GenerateInitial(v: View, script: Option<string>, questions: Option<seq<Question>>, now: string): (w: View)
    requires !v.app.isGenerating
    ensures !w.app.isGenerating
    ensures w.app.moyamoya == v.app.moyamoya && w.app.version == v.app.version
    ensures w.app.createdAt == v.app.createdAt && w.app.apiKey == v.app.apiKey
    ensures IsBlank(v.app.moyamoya) ==> w == ShowError(v, EmptyMemoMessage)
    ensures !IsBlank(v.app.moyamoya) && (script.None? || questions.None?) ==>
      w == ShowError(v, GenerateFailedMessage)
    ensures !IsBlank(v.app.moyamoya) && script.Some? && questions.Some? ==>
      && w.app.script == script.value && w.app.questions == questions.value
      && w.app.updatedAt == now && w.app.error == v.app.error
      && w.activeStep == 2 && w.toast == Some(ScriptReadyToast)
    ensures w.app.script == v.app.script || Some(w.app.questions) == questions
  {
    if IsBlank(v.app.moyamoya) then ShowError(v, EmptyMemoMessage)
    else
      match (script, questions)
      case (Some(s), Some(qs)) =>
        View(v.app.(script := s, questions := qs, updatedAt := now, isGenerating := false),
             2, Some(ScriptReadyToast))
      case _ =>
        // the busy flag raised before the calls is lowered again in the catch
        ShowError(v, GenerateFailedMessage)
  }

  /** `handleUpdate`, run to completion: with no answered question it is
      refused without a call; otherwise `script` is the outcome of the merge
      call. Only the script and its timestamp change on success; questions
      with their answers, memo, version and step never change. */
  function HandleUpdate(v: View, script: Option<string>, now: string): (w: View)
    requires !v.app.isGenerating
    ensures !w.app.isGenerating
    ensures w.app.questions == v.app.questions && w.app.moyamoya == v.app.moyamoya
    ensures w.app.version == v.app.version && w.app.createdAt == v.app.createdAt
    ensures w.activeStep == v.activeStep
    ensures !HasAnyAnswer(v.app.questions) ==> w == ShowError(v, NoAnswerMessage)
    ensures HasAnyAnswer(v.app.questions) && script.None? ==> w == ShowError(v, UpdateFailedMessage)
    ensures HasAnyAnswer(v.app.questions) && script.Some? ==>
      w == v.(app := v.app.(script := script.value, updatedAt := now), toast := Some(ScriptRefinedToast))
  {
    if !HasAnyAnswer(v.app.questions) then ShowError(v, NoAnswerMessage)
    else
      match script
      case Some(s) =>
        v.(app := v.app.(script := s, updatedAt := now, isGenerating := false), toast := Some(ScriptRefinedToast))
      case None =>
        ShowError(v, UpdateFailedMessage)
  }

  /** The answer list after typing `value` into the question `id`: the same
      questions in the same order, every one with that id answered `value`,
      every other one untouched. */
  function SetAnswer(qs: seq<Question>, id: int, value: string): (r: seq<Question>)
    ensures |r| == |qs|
    ensures forall i :: 0 <= i < |qs| ==>
      && r[i].id == qs[i].id && r[i].question == qs[i].question && r[i].reason == qs[i].reason
      && (qs[i].id == id ==> r[i].answer == value)
      && (qs[i].id != id ==> r[i] == qs[i])
  {
    if qs == [] then []
    else
      var head := if qs[0].id == id then qs[0].(answer := value) else qs[0];
      [head] + SetAnswer(qs[1..], id, value)
  }

  /** `handleAnswerChange`: only the answers of the matching questions change;
      the list keeps its length and everything else in the view is kept. */
  function HandleAnswerChange(v: View, id: int, value: string): (w: View)
    ensures w.(app := w.app.(questions := v.app.questions)) == v
    ensures |w.app.questions| == |v.app.questions|
    ensures forall i :: 0 <= i < |v.app.questions| && v.app.questions[i].id == id ==>
      w.app.questions[i].answer == value
  {
    v.(app := v.app.(questions := SetAnswer(v.app.questions, id, value)))
  }

  /** The memo text area's `onChange`: the memo becomes the typed text and
      nothing else in the view changes. */
  function EditMoyamoya(v: View, text: string): (w: View)
    ensures w.app.moyamoya == text
    ensures w.(app := w.app.(moyamoya := v.app.moyamoya)) == v
  {
    v.(app := v.app.(moyamoya := text))
  }

  /** The reset button: after confirmation the memo, script and questions are
      emptied and step 1 is shown; version, timestamps and transient fields
      are kept. Without confirmation nothing happens. */
  function ResetDraft(v: View, confirmed: bool): (w: View)
    ensures !confirmed ==> w == v
    ensures confirmed ==>
      && w.app == v.app.(moyamoya := [], script := [], questions := [])
      && w.activeStep == 1 && w.toast == v.toast
  {
    if confirmed then v.(app := v.app.(moyamoya := [], script := [], questions := []), activeStep := 1)
    else v
  }

  // ----- Storage -----

  /** The storage slot under the key `moyamoya_v3_draft`: nothing stored, text that does not parse as a draft,
      or a stored draft. */
  datatype Slot = Vacant | Corrupt | Saved(data: PresentationData)

  /** The load effect: a stored draft is merged over the current state and
      step 2 is shown when it has a script; anything else is ignored. */
  function LoadDraft(v: View, slot: Slot): (w: View)
    ensures !slot.Saved? ==> w == v
    ensures slot.Saved? ==>
      && Snapshot(w.app) == slot.data
      && w.app.isGenerating == v.app.isGenerating && w.app.error == v.app.error
      && w.app.apiKey == v.app.apiKey && w.toast == v.toast
      && w.activeStep == (if slot.data.script != [] then 2 else v.activeStep)
  {
    match slot
    case Saved(d) =>
      RestoreThenSnapshot(v.app, d);
      v.(app := Restore(v.app, d), activeStep := if d.script != [] then 2 else v.activeStep)
    case _ => v
  }

  /** The save effect: it runs when the memo or the script changed value, or
      when the questions are a newly built array, and then writes the six
      persisted fields. */
  function SaveEffect(before: AppState, after: AppState, rebuilt: bool, slot: Slot): (r: Slot)
    ensures r == slot || r == Saved(Snapshot(after))
    ensures rebuilt ==> r == Saved(Snapshot(after))
    ensures before.moyamoya != after.moyamoya || before.script != after.script ==> r == Saved(Snapshot(after))
    ensures !rebuilt && before.moyamoya == after.moyamoya && before.script == after.script ==> r == slot
  {
    if before.moyamoya != after.moyamoya || before.script != after.script || rebuilt
    then Saved(Snapshot(after))
    else slot
  }

  // ----- The whole component -----

  /** A user action or timer, with the outcomes it depends on. */
  datatype Event =
    | MemoTyped(text: string)
    | GenerateClicked(script: Option<string>, questions: Option<seq<Question>>, generatedAt: string)
    | RefineClicked(refined: Option<string>, refinedAt: string)
    | AnswerTyped(id: int, value: string)
    | ResetClicked(confirmed: bool)
    | ErrorExpired
    | ToastExpired

  /** The component plus what is in storage. */
  datatype System = System(view: View, slot: Slot)

  /** Both generation buttons are disabled while a call is in flight. */
  predicate Enabled(v: View, ev: Event) {
    (ev.GenerateClicked? || ev.RefineClicked?) ==> !v.app.isGenerating
  }

  /** The handler an event runs. */
  function Handle(v: View, ev: Event): View
    requires Enabled(v, ev)
  {
    match ev
    case MemoTyped(text) => EditMoyamoya(v, text)
    case GenerateClicked(s, qs, now) => GenerateInitial(v, s, qs, now)
    case RefineClicked(s, now) => HandleUpdate(v, s, now)
    case AnswerTyped(id, value) => HandleAnswerChange(v, id, value)
    case ResetClicked(confirmed) => ResetDraft(v, confirmed)
    case ErrorExpired => v.(app := v.app.(error := None))
    case ToastExpired => v.(toast := None)
  }

  /** Whether the handler hands over a newly built questions array; the save
      effect compares its dependencies by identity, so that alone triggers a
      write. */
  function RebuildsQuestions(v: View, ev: Event): bool {
    match ev
    case AnswerTyped(_, _) => true
    case ResetClicked(confirmed) => confirmed
    case GenerateClicked(s, qs, _) => !IsBlank(v.app.moyamoya) && s.Some? && qs.Some?
    case _ => false
  }

  /** Which events hand the save effect a new questions array: a successful
      generation, any typed answer (`map` builds a new array even when no id
      matches) and a confirmed reset. The memo box, refining and the two
      timers keep the same array, and then the list itself is unchanged. */
  lemma FreshQuestionsArrays(v: View, ev: Event)
    requires Enabled(v, ev)
    ensures !RebuildsQuestions(v, ev) ==> Handle(v, ev).app.questions == v.app.questions
    ensures ev.GenerateClicked? && RebuildsQuestions(v, ev) ==>
      Handle(v, ev).app.questions == ev.questions.value && Handle(v, ev).toast == Some(ScriptReadyToast)
    ensures ev.AnswerTyped? ==> RebuildsQuestions(v, ev)
    ensures ev.ResetClicked? ==> (RebuildsQuestions(v, ev) <==> ev.confirmed)
    ensures ev.MemoTyped? || ev.RefineClicked? || ev.ErrorExpired? || ev.ToastExpired? ==>
      !RebuildsQuestions(v, ev)
  {
  }

  /** One event: the handler, then (for a reset) the slot removal, then the
      save effect. The slot either keeps its content or holds the new
      snapshot; after a confirmed reset it holds the emptied draft, not
      nothing. */
  function Step(sys: System, ev: Event): (next: System)
    requires Enabled(sys.view, ev)
    ensures next.view == Handle(sys.view, ev)
    ensures next.slot == sys.slot || next.slot == Saved(Snapshot(next.view.app))
    ensures ev == ResetClicked(true) ==>
      next.slot == Saved(Snapshot(sys.view.app.(moyamoya := [], script := [], questions := [])))
  {
    var w := Handle(sys.view, ev);
    var cleared := if ev == ResetClicked(true) then Vacant else sys.slot;
    System(w, SaveEffect(sys.view.app, w.app, RebuildsQuestions(sys.view, ev), cleared))
  }

  /** Mounting: the load effect reads the slot, the save effect writes the
      initial draft, and when a draft was loaded the re-render saves it back
      (its questions are a new array). The slot ends up holding the loaded
      draft, or the empty one when nothing usable was stored. */
  function Mount(stored: Slot, createdNow: string, updatedNow: string): (sys: System)
    ensures sys.slot == Saved(Snapshot(sys.view.app))
    ensures !stored.Saved? ==> sys.view == Start(createdNow, updatedNow)
    ensures stored.Saved? ==>
      && Snapshot(sys.view.app) == stored.data
      && sys.view.activeStep == (if stored.data.script != [] then 2 else 1)
    ensures !sys.view.app.isGenerating && sys.view.app.error.None? && sys.view.toast.None?
    ensures sys.view.app.apiKey == []
  {
    var first := Start(createdNow, updatedNow);
    var written := Saved(Snapshot(first.app));
    var loaded := LoadDraft(first, stored);
    if stored.Saved? then System(loaded, Saved(Snapshot(loaded.app))) else System(loaded, written)
  }

  // ----- Properties of the lifecycle -----

  /** The slot mirrors the draft: all persisted fields agree, except that the
      stored update time may lag when a refinement returned the same script. */
  predicate InSync(sys: System) {
    sys.slot.Saved? && sys.slot.data == Snapshot(sys.view.app).(updatedAt := sys.slot.data.updatedAt)
  }

  /** Mounting puts the slot in sync with the draft. */
  lemma MountInSync(stored: Slot, createdNow: string, updatedNow: string)
    ensures InSync(Mount(stored, createdNow, updatedNow))
  {
  }

  /** Every event keeps the slot in sync: a write follows each change of the
      memo, the script or the questions, so storage never holds a script
      with questions from another draft. */
  lemma StepKeepsSync(sys: System, ev: Event)
    requires Enabled(sys.view, ev) && InSync(sys)
    ensures InSync(Step(sys, ev))
  {
  }

  /** No event changes the version or the creation time. */
  lemma StepKeepsVersion(sys: System, ev: Event)
    requires Enabled(sys.view, ev)
    ensures Step(sys, ev).view.app.version == sys.view.app.version
    ensures Step(sys, ev).view.app.createdAt == sys.view.app.createdAt
  {
  }

  /** The progress step is always 1 or 2. */
  predicate StepShown(v: View) {
    v.activeStep == 1 || v.activeStep == 2
  }

  /** Every event keeps the progress step at 1 or 2. */
  lemma StepKeepsProgress(sys: System, ev: Event)
    requires Enabled(sys.view, ev) && StepShown(sys.view)
    ensures StepShown(Step(sys, ev).view)
  {
  }

  /** Every event returns with the busy flag down if it was down. */
  lemma StepNeverLeavesBusy(sys: System, ev: Event)
    requires Enabled(sys.view, ev) && !sys.view.app.isGenerating
    ensures !Step(sys, ev).view.app.isGenerating
  {
  }

  /** Reloading what was saved restores the six persisted fields verbatim and
      shows step 2 exactly when there is a script. */
  lemma SaveThenReload(s: AppState, createdNow: string, updatedNow: string)
    ensures Snapshot(Mount(Saved(Snapshot(s)), createdNow, updatedNow).view.app) == Snapshot(s)
    ensures Mount(Saved(Snapshot(s)), createdNow, updatedNow).view.activeStep == (if s.script != [] then 2 else 1)
  {
  }

  /** A corrupt slot is ignored: the component starts empty and overwrites it. */
  lemma CorruptSlotStartsEmpty(createdNow: string, updatedNow: string)
    ensures Mount(Corrupt, createdNow, updatedNow).view == Start(createdNow, updatedNow)
    ensures Mount(Corrupt, createdNow, updatedNow).slot == Saved(Snapshot(InitialState(createdNow, updatedNow)))
  {
  }

  /** A confirmed reset survives a reload: the reloaded draft is empty, shows
      step 1, and keeps the version and timestamps the reset kept. */
  lemma ResetThenReload(sys: System, createdNow: string, updatedNow: string)
    ensures var after := Mount(Step(sys, ResetClicked(true)).slot, createdNow, updatedNow).view;
      && after.app.moyamoya == [] && after.app.script == [] && after.app.questions == []
      && after.activeStep == 1
      && after.app.version == sys.view.app.version
      && after.app.createdAt == sys.view.app.createdAt
      && after.app.updatedAt == sys.view.app.updatedAt
  {
  }

  /** Typing the same answer twice is typing it once; the later of two
      answers to one question wins. */
  lemma SetAnswerLastWins(qs: seq<Question>, id: int, first: string, second: string)
    ensures SetAnswer(SetAnswer(qs, id, first), id, second) == SetAnswer(qs, id, second)
  {
  }

  /** Answers typed into different questions do not interfere. */
  lemma SetAnswerCommutes(qs: seq<Question>, a: int, x: string, b: int, y: string)
    requires a != b
    ensures SetAnswer(SetAnswer(qs, a, x), b, y) == SetAnswer(SetAnswer(qs, b, y), a, x)
  {
  }

  /** A non-blank answer typed into a shown question opens the refine guard. */
  lemma AnswerOpensRefine(v: View, i: nat, value: string)
    requires i < |v.app.questions| && !IsBlank(value)
    ensures HasAnyAnswer(HandleAnswerChange(v, v.app.questions[i].id, value).app.questions)
  {
  }

  /** Right after a successful generation every question comes from the
      service unanswered, so refining is refused until something is typed. */
  lemma RefineRefusedAfterGenerate(
      v: View, script: Option<string>, reply: Prompts.Reply,
      decode: string -> Option<seq<Prompts.RawQuestion>>, now: string,
      refined: Option<string>, later: string)
    requires !v.app.isGenerating && !IsBlank(v.app.moyamoya)
    requires script.Some? && Prompts.QuestionsResult(reply, decode).Some?
    ensures var w := GenerateInitial(v, script, Prompts.QuestionsResult(reply, decode), now);
      HandleUpdate(w, refined, later) == ShowError(w, NoAnswerMessage)
  {
  }
}

=== FILE: wrappers.dfy ===
/** Option and Result: absent values and failing calls without preconditions. */
module Wrappers {

  /** A value that may be missing: `undefined`/`null` in the TypeScript source,
      or a call that did not return normally. */
  datatype Option<+T> = None | Some(value: T)

  /** The outcome of an operation that either yields a value or raises an error
      carrying a message. */
  datatype Result<+R, +E> = Success(value: R) | Failure(error: E)
}
